=== FILE: README.md ===
# Weather app core, modelled in Dafny

A model of the non-UI logic of an Android weather client (Kotlin, Jetpack
Compose). The screen `WeatherPage` and the `WeatherViewModel` behind it hold
four small pieces of real logic, each modelled here as pure functions over
immutable data:

1. **Favourites** (`favorites.dfy`): the session's list of favourite city
   names. `toggleFavorite` only ever appends, and leaves a city that is
   already present alone. `removeFavorite` filters out every copy of a name.
2. **Background picture** (`background.dfy`, `text.dfy`): `ImageBackground`
   trims the weather condition, then tests eight keywords as case-sensitive
   substrings in a fixed order (Clear, Clouds, Drizzle, Rain, Thunderstorm,
   Snow, Mist, Fog). The first keyword that occurs picks its picture. No
   match gives the empty address, and the page then paints a white box.
3. **Sunrise and sunset text** (`clock.dfy`, `jvm.dfy`):
   `convertUnixTimestampToTime` shifts the epoch-seconds instant by the
   city's offset and prints it as `HH:mm:ss` in GMT. The JVM `Long`
   arithmetic (`timestamp * 1000`, then adding `offset * 1000`) is modelled
   with its wrap-around. Without overflow the text encodes
   `(timestamp + offset) mod 86400`.
4. **Result cells** (`view_model.dfy`, `weather_data.dfy`): the weather cell
   and the forecast cell each hold the latest `NetworkResponse`
   (`Loading | Success | Error`), or nothing before the first fetch. Each
   fetch sets its cell to `Loading` at once. When the service call
   finishes, its outcome is written over the cell. The outcome is one of: a
   successful response with or without a body, an unsuccessful response, or
   an exception with a nullable message. Start and completion are separate
   events, so any interleaving of overlapping fetches is a plain event
   sequence (`Run`).

`page.dfy` ties these together. It covers the condition text derived from
the weather cell and the backdrop actually painted. It also covers the five
forecast slots shown, the sunrise/sunset pair, and the fetches issued by the
search button, the location button and a tap on a favourite.

Behaviour of the code that the model keeps as written:
- `getData` shows `"An error occurred: " + message + "a"`, with a literal
  trailing `a`. `getWeatherDataByCoordinates` shows the same text without
  the `a`. A null exception message prints as `null`.
- A successful response without a body writes nothing
  (WeatherViewModel.kt:39-41), so the cell stays `Loading`
  (`MissingBodyLeavesLoading`).
- `toggleFavorite` returns `Unit`. Besides the redrawn heart and favourites
  list, a toast is its only message
  (WeatherPage.kt:111-118). The model leaves the toast out.
- Overlapping fetches of the same kind are not sequenced. Whichever call
  resolves last wins (`LastResolvedWins`).

Source paths below are relative to the repository root.

## Model

| member | source | states |
|---|---|---|
| Favorites.ToggleFavorite | app/src/main/java/com/example/weatherapp/WeatherPage.kt:111-118 | The result contains exactly the old cities plus the toggled one. It starts with the old list unchanged. It grows by one exactly when the city was absent. |
| Favorites.ToggleKeepsNoDuplicates | app/src/main/java/com/example/weatherapp/WeatherPage.kt:111-118 | Toggling a list without duplicates gives a list without duplicates. |
| Favorites.ToggleIdempotent | app/src/main/java/com/example/weatherapp/WeatherPage.kt:111-118 | Toggling the same city twice equals toggling it once. |
| Favorites.RemoveFavorite | app/src/main/java/com/example/weatherapp/WeatherPage.kt:120-121 | The removed city no longer occurs. Every other name keeps its count, and the survivors keep their original order. Removing an absent city changes nothing. |
| Favorites.RemoveCharacterised | app/src/main/java/com/example/weatherapp/WeatherPage.kt:120-121 | Any order-preserving selection that drops the city and keeps every other name's count equals `RemoveFavorite`, so its contract fixes the result. |
| Favorites.RemoveKeepsNoDuplicates | app/src/main/java/com/example/weatherapp/WeatherPage.kt:120-121 | Removing from a list without duplicates gives a list without duplicates. |
| Favorites.RemoveUndoesToggle | app/src/main/java/com/example/weatherapp/WeatherPage.kt:111-121 | Removing a city that a toggle just added restores the previous list. |
| Favorites.SessionHasNoDuplicates | app/src/main/java/com/example/weatherapp/WeatherPage.kt:78-121 | The list starts empty, so after any sequence of toggles and removals no city appears twice. |
| Text.Trim | app/src/main/java/com/example/weatherapp/WeatherPage.kt:534 | The result is a slice of the input. Only whitespace lies outside it, and it neither starts nor ends with whitespace. |
| Text.IsWhitespace | app/src/main/java/com/example/weatherapp/WeatherPage.kt:534 | The characters `trim()` cuts: space, tab, line feed and carriage return, and also the no-break spaces U+00A0, U+2007 and U+202F. No printable ASCII character other than space is cut. |
| Text.TrimUnique | app/src/main/java/com/example/weatherapp/WeatherPage.kt:534 | That description of trimming has exactly one solution, namely `Trim`. |
| Text.Contains | app/src/main/java/com/example/weatherapp/WeatherPage.kt:542-549 | True exactly when the word occurs at some position of the text, matching case exactly. |
| Text.ContainsTrimmed | app/src/main/java/com/example/weatherapp/WeatherPage.kt:534-549 | Trimming never changes whether a non-empty, whitespace-free word occurs. |
| Background.FirstMatchFrom | app/src/main/java/com/example/weatherapp/WeatherPage.kt:541-551 | Returns the first keyword from a position on that occurs, with no earlier one occurring. Returns none when no keyword from there on occurs. |
| Background.ImageFor | app/src/main/java/com/example/weatherapp/WeatherPage.kt:541-552 | The address is empty exactly when no keyword occurs. Otherwise it is the picture of the first keyword in list order that occurs. |
| Background.BackgroundImage | app/src/main/java/com/example/weatherapp/WeatherPage.kt:533-552 | Same as ImageFor, applied to the trimmed condition. |
| Background.BackgroundImageIsFirstMatch | app/src/main/java/com/example/weatherapp/WeatherPage.kt:541-552 | The picture is keyword n's exactly when n is the first keyword found in the trimmed condition (both directions). |
| Background.ImageUrl | app/src/main/java/com/example/weatherapp/WeatherPage.kt:542-549 | Each keyword's picture address has its own fixed length, and no two lengths agree, so the eight addresses are told apart by length alone. |
| Background.ImagesDistinct | app/src/main/java/com/example/weatherapp/WeatherPage.kt:542-549 | No two keywords share a picture address. |
| Background.BackgroundIgnoresTrim | app/src/main/java/com/example/weatherapp/WeatherPage.kt:534-552 | The trim never changes the picture: matching the untrimmed condition picks the same address. |
| Background.RainBeatsThunderstorm | app/src/main/java/com/example/weatherapp/WeatherPage.kt:545-546 | A condition that contains both "Rain" and "Thunderstorm" never gets the thunderstorm picture. Keyword order decides, not specificity. |
| Jvm.WrapLong | app/src/main/java/com/example/weatherapp/WeatherPage.kt:428 | The result is a 64-bit value congruent to the exact result modulo 2^64. It equals the exact result when that fits. |
| Clock.ShiftedMillis | app/src/main/java/com/example/weatherapp/WeatherPage.kt:428-431 | The instant formatted is congruent to (timestamp + offset)·1000 modulo 2^64, and equals it when nothing overflows. |
| Clock.SecondOfDay | app/src/main/java/com/example/weatherapp/WeatherPage.kt:433-435 | The GMT second of the day that contains the instant, rounding towards the past: it lies in 0..86399 and its 1000 ms span holds the instant's millisecond of the day, including for instants before 1970 and instants with a millisecond part. |
| Clock.ClockText | app/src/main/java/com/example/weatherapp/WeatherPage.kt:433-435 | Printing a second of the day gives a valid `HH:mm:ss` text: 8 characters, two colons, zero-padded fields, HH<24, mm<60, ss<60. The text reads back as that second. |
| Clock.ClockTextOfValue | app/src/main/java/com/example/weatherapp/WeatherPage.kt:433-435 | Every valid `HH:mm:ss` text is the printing of the second it names, so printing is a bijection onto valid texts. |
| Clock.ShiftedSecondOfDay | app/src/main/java/com/example/weatherapp/WeatherPage.kt:428-431 | Without overflow, the second of the day of the shifted instant is `(timestamp + offset) mod 86400`. |
| Clock.ConvertUnixTimestampToTime | app/src/main/java/com/example/weatherapp/WeatherPage.kt:427-436 | Always a valid `HH:mm:ss` text. It names the GMT second of the day of the shifted instant for every input, wrapped or not. Without overflow that second is `(timestamp + offset) mod 86400`. |
| Clock.SameTextSameSecond | app/src/main/java/com/example/weatherapp/WeatherPage.kt:427-436 | Two conversions give the same text exactly when the shifted instants fall at the same second of the day. |
| Clock.ShiftByDays | app/src/main/java/com/example/weatherapp/WeatherPage.kt:427-436 | Moving the timestamp by whole days gives the same text. |
| Clock.LargestTimestampWraps | app/src/main/java/com/example/weatherapp/WeatherPage.kt:428 | At the largest `Long` timestamp, `timestamp * 1000` wraps to -1000. The text then reads 23:59:59, not the timestamp's own time of day. |
| ViewModel.WeatherExceptionMessage | app/src/main/java/com/example/weatherapp/WeatherViewModel.kt:45-92 | The message starts with "An error occurred: ". From `getData` it ends in the extra literal "a". From the coordinate fetch, the exception text follows the prefix unchanged. |
| ViewModel.Template | app/src/main/java/com/example/weatherapp/WeatherViewModel.kt:46 | A present message prints as itself. The text is "null" exactly when the message is null or is itself the text "null". |
| ViewModel.ExceptionTextRecoverable | app/src/main/java/com/example/weatherapp/WeatherViewModel.kt:45-92 | The exception text (or "null") can be read back out of the shown message. |
| ViewModel.WeatherWrite | app/src/main/java/com/example/weatherapp/WeatherViewModel.kt:32-95 | A completion never writes Loading. It writes nothing exactly for a success without a body. It writes Success(b) exactly for a body b. It writes "Location not found" exactly for an unsuccessful response. An exception gives exactly the error `WeatherExceptionMessage` prints: "An error occurred: ", the message, and a trailing "a" for `getData` only. |
| ViewModel.ForecastWrite | app/src/main/java/com/example/weatherapp/WeatherViewModel.kt:53-114 | The same body rules as WeatherWrite. Every failure, whether HTTP or exception, gives exactly "Failed to load forecast data". |
| ViewModel.WeatherWriteDistinguishes | app/src/main/java/com/example/weatherapp/WeatherViewModel.kt:32-95 | Two outcomes write the same value exactly when they are equal, or are exceptions whose messages print alike (a null message and the text "null" collide). |
| ViewModel.ForecastIgnoresQuery | app/src/main/java/com/example/weatherapp/WeatherViewModel.kt:53-114 | The forecast cell's value does not depend on whether the fetch was by city or by coordinates. |
| ViewModel.Step | app/src/main/java/com/example/weatherapp/WeatherViewModel.kt:32-114 | Weather events leave the forecast cell alone, and forecast events leave the weather cell alone. A start sets its cell to Loading. A completion with no body changes nothing. |
| ViewModel.WeatherLastWriteWins | app/src/main/java/com/example/weatherapp/WeatherViewModel.kt:32-95 | After any event sequence, the weather cell holds what the last event that wrote to it wrote. |
| ViewModel.WeatherUnwritten | app/src/main/java/com/example/weatherapp/WeatherViewModel.kt:32-95 | If no event writes the weather cell, it keeps its value. |
| ViewModel.ForecastLastWriteWins | app/src/main/java/com/example/weatherapp/WeatherViewModel.kt:53-114 | After any event sequence, the forecast cell holds what the last event that wrote to it wrote. |
| ViewModel.ForecastUnwritten | app/src/main/java/com/example/weatherapp/WeatherViewModel.kt:53-114 | If no event writes the forecast cell, it keeps its value. |
| ViewModel.CellsIndependent | app/src/main/java/com/example/weatherapp/WeatherViewModel.kt:22-114 | Any run of weather events leaves the forecast cell unchanged, and any run of forecast events leaves the weather cell unchanged. |
| ViewModel.LastResolvedWins | app/src/main/java/com/example/weatherapp/WeatherViewModel.kt:32-51 | Start fetches 1 and 2, then complete 2 and then 1. The cell shows fetch 1's result: the last to resolve wins, not the last issued. |
| ViewModel.MissingBodyLeavesLoading | app/src/main/java/com/example/weatherapp/WeatherViewModel.kt:33-41 | A fetch whose successful response has no body leaves its cell at Loading, whatever it held before. |
| Page.WeatherDescription | app/src/main/java/com/example/weatherapp/WeatherPage.kt:84-87 | The first condition's group name when weather is loaded and has a condition. "" in every other case (no value yet, Loading, Error, empty list). |
| Page.IsWeatherLoaded | app/src/main/java/com/example/weatherapp/WeatherPage.kt:88 | The weather cell holds a success (no contract; see LoadedAfterStep). |
| Page.LoadedAfterStep | app/src/main/java/com/example/weatherapp/WeatherPage.kt:88 | A weather start unloads the screen. A completion leaves it loaded exactly when it is a success with data, or a success without a body on an already loaded screen. Forecast events never change it. |
| Page.ScreenBackdrop | app/src/main/java/com/example/weatherapp/WeatherPage.kt:131-138 | The gradient exactly when weather is not loaded. Otherwise the first-keyword picture of the trimmed condition, or white when no keyword occurs. |
| Page.BackdropAfterWeather | app/src/main/java/com/example/weatherapp/WeatherPage.kt:84-138 | A weather start makes the backdrop the gradient. A completion with body w makes it the picture chosen from w's first condition, or white. |
| Page.ShownForecast | app/src/main/java/com/example/weatherapp/WeatherPage.kt:465 | The forecast shows min(5, n) slots, and they are the first ones of the list. |
| Page.SunTimes | app/src/main/java/com/example/weatherapp/WeatherPage.kt:277-278 | Sunrise and sunset are valid `HH:mm:ss` texts. Without overflow each encodes its instant plus the city offset, modulo a day. |
| Page.HeartTap | app/src/main/java/com/example/weatherapp/WeatherPage.kt:215 | Tapping an empty heart fills it and appends the city. Tapping a filled heart, labelled "Remove from favorites" (line 684), changes neither the heart nor the list. |
| Page.SearchCity | app/src/main/java/com/example/weatherapp/WeatherPage.kt:125-128 | The search button and a favourite tap (also lines 170-173) start a weather fetch and then a forecast fetch, both for the same city. |
| Page.UseCurrentLocation | app/src/main/java/com/example/weatherapp/WeatherPage.kt:98-107 | No last location issues no fetch. A known one starts a weather fetch and then a forecast fetch, both for its coordinates. |
| Page.SearchShowsLoading | app/src/main/java/com/example/weatherapp/WeatherPage.kt:170-173 | Right after a search (or a tap on a favourite), both cells show Loading. |
| Page.LocationShowsLoading | app/src/main/java/com/example/weatherapp/WeatherPage.kt:98-107 | With a last known location both cells show Loading. Without one nothing changes. |

## Left out

- Compose layout and rendering are left out: `WeatherDetails`, the `ForecastDetails` layout, the placeholders, `GradientBackground`, `FavoriteIcon`, `FavoriteCityItem` and the Celsius/Fahrenheit switch. Apart from the display formatting listed below, their only logic is an unguarded read of the first weather condition, recorded in the next two lines.
- Page.WeatherDescription: an empty condition list is mapped to "", as WeatherPage.kt:84-87 does. On a working screen that case never shows, because `WeatherDetails` reads `data.weather[0].icon` without a guard (WeatherPage.kt:274) and throws while the screen is drawn. The model does not represent that crash.
- Page.SunTimes: states the texts `convertUnixTimestampToTime` returns (WeatherPage.kt:277-278). With an empty condition list the screen throws at WeatherPage.kt:274 before they are computed. Likewise a forecast slot without a condition throws at WeatherPage.kt:475. The model does not represent these crashes.
- Kotlin strings are UTF-16 code units, while a Dafny `char` is a Unicode scalar value. `trim`, `contains` and equality agree on well-formed text, but a lone surrogate cannot be represented.
- Toast and Log calls are side effects. Apart from the redrawn heart (`FavoriteIcon`, WeatherPage.kt:215, 679-687) and the redrawn favourites list (WeatherPage.kt:250-263), toasts carry the only messages from `toggleFavorite` and `removeFavorite`.
- The filled heart is labelled "Remove from favorites" (WeatherPage.kt:684), but tapping it calls `toggleFavorite`, which never removes (WeatherPage.kt:112-113). The model keeps the handler as written (`Page.HeartTap`) and does not model the label, whose intent the code does not settle: the handler's toast ("already in your favorites") treats the no-op as deliberate.
- `kelvinToCelsius`, `celsiusToFahrenheit` and `convertWindSpeedToKmh` are left out. They are floating-point arithmetic formatted with a locale-dependent `String.format`.
- The forecast `dt_txt` to `HH:mm` conversion is left out. It calls `SimpleDateFormat` with the default locale inside a try/catch.
- `getWeatherIconUrl` is left out: it only builds an icon address for display.
- The HTTP interface (`WeatherApi`), Retrofit, JSON parsing and the API key are left out. A call is abstracted to its `Outcome`. Coordinates are carried as reals and never computed with.
- The location provider and permission flow (`MainActivity`, `LocationHelper`) are left out. The last known location is a parameter of `UseCurrentLocation`.
- Coroutine scheduling and LiveData observation are left out. Concurrency appears only as the order of start and completion events. The model does not tie a completion to the start that launched it.
- Clock.ConvertUnixTimestampToTime: assumes the default locale prints ASCII digits. `SimpleDateFormat` uses the locale's digits, and some locales use others.
- The records keep only a subset of the service's fields. Some kept fields are shown by the screen but read by no modelled member: `WeatherModel.name` and `.temp`, `ForecastItem.dtTxt` and `.temp`, `Condition.description` and `.icon`. Their display goes through the left-out formatting above.

=== FILE: background.dfy ===
/**
 * Choice of the full-screen background picture (`ImageBackground` in
 * WeatherPage.kt): the weather condition is trimmed and tested, in a fixed
 * order, for each condition keyword as a case-sensitive substring; the first
 * keyword found picks its picture, and no match gives the empty address
 * (the page then paints a plain white box).
 */
module Background {
  import opened Optional
  import opened Text

  /** The condition keywords, in the order the `when` tests them. */
  const Keywords: seq<string> :=
    ["Clear", "Clouds", "Drizzle", "Rain", "Thunderstorm", "Snow", "Mist", "Fog"]

  /** The picture addresses, one per keyword. */
  const ClearImage: string := "https://media.istockphoto.com/id/491701259/photo/blue-sky-with-sun.jpg?s=612x612&w=0&k=20&c=aB7c-e0YFezBb8cgSykiEcAh_2fXEie3inIudnsNa9g="
  const CloudsImage: string := "https://img.freepik.com/free-photo/black-rain-abstract-dark-power_1127-2380.jpg"
  const DrizzleImage: string := "https://thumbs.dreamstime.com/b/heavy-rain-outside-created-artificial-intelligence-320885240.jpg"
  const RainImage: string := "https://static9.depositphotos.com/1408467/1141/v/450/depositphotos_11416086-stock-illustration-a-rainy-day.jpg"
  const ThunderstormImage: string := "https://media.istockphoto.com/id/517643357/photo/thunderstorm-lightning-with-dark-cloudy-sky.jpg?s=612x612&w=0&k=20&c=x3G3UijRPVGFMFExnlYGbnQtnlH6-oUoMU48BTkc0Os="
  const SnowImage: string := "https://t3.ftcdn.net/jpg/02/99/62/78/360_F_299627872_qCUz3CSSoS7fjB8b6RLXYzX2YIj28qjo.jpg"
  const MistImage: string := "https://media.istockphoto.com/id/1200158590/photo/majestic-countryside-at-sunrise-in-wintertime.jpg?s=612x612&w=0&k=20&c=iIEmwbu3q0d16VHYBz-JyZoJRkzPIctzeDgPPTUlaB0="
  const FogImage: string := "https://images.pexels.com/photos/167699/pexels-photo-167699.jpeg?cs=srgb&dl=pexels-lum3n-44775-167699.jpg&fm=jpg"

  /**
   * The lengths of the picture addresses; no two are the same. These lengths
   * and the one-line lemmas below are proof aids only: comparing lengths is
   * the cheap way for the verifier to tell the long addresses apart. They
   * describe nothing the app itself computes.
   */
  const UrlLengths: seq<int> := [136, 79, 96, 110, 162, 89, 165, 112]

  lemma ClearImageLength()
    ensures |ClearImage| == 136
  {
  }

  lemma CloudsImageLength()
    ensures |CloudsImage| == 79
  {
  }

  lemma DrizzleImageLength()
    ensures |DrizzleImage| == 96
  {
  }

  lemma RainImageLength()
    ensures |RainImage| == 110
  {
  }

  lemma ThunderstormImageLength()
    ensures |ThunderstormImage| == 162
  {
  }

  lemma SnowImageLength()
    ensures |SnowImage| == 89
  {
  }

  lemma MistImageLength()
    ensures |MistImage| == 165
  {
  }

  lemma FogImageLength()
    ensures |FogImage| == 112
  {
  }

  /** The picture address the `when` gives for keyword `n`. */
  function ImageUrl(n: int): (url: string)
    requires 0 <= n < |Keywords|
    ensures |url| == UrlLengths[n]
  {
    if n == 0 then ClearImageLength(); ClearImage
    else if n == 1 then CloudsImageLength(); CloudsImage
    else if n == 2 then DrizzleImageLength(); DrizzleImage
    else if n == 3 then RainImageLength(); RainImage
    else if n == 4 then ThunderstormImageLength(); ThunderstormImage
    else if n == 5 then SnowImageLength(); SnowImage
    else if n == 6 then MistImageLength(); MistImage
    else FogImageLength(); FogImage
  }

  /** Keyword `n` is the one the `when` picks for `d`: it occurs, and no earlier keyword does. */
  predicate IsFirstMatch(d: string, n: int) {
    && 0 <= n < |Keywords|
    && Contains(d, Keywords[n])
    && forall m :: 0 <= m < n ==> !Contains(d, Keywords[m])
  }

  /** The first keyword, from position `from` on, that occurs in `d`. */
  function FirstMatchFrom(d: string, from: nat): (r: Option<nat>)
    requires from <= |Keywords|
    ensures r.Some? ==> from <= r.value < |Keywords| && Contains(d, Keywords[r.value])
    ensures r.Some? ==> forall m :: from <= m < r.value ==> !Contains(d, Keywords[m])
    ensures r.None? ==> forall m :: from <= m < |Keywords| ==> !Contains(d, Keywords[m])
    decreases |Keywords| - from
  {
    if from == |Keywords| then None
    else if Contains(d, Keywords[from]) then Some(from)
    else FirstMatchFrom(d, from + 1)
  }

  /** The picture for an already-trimmed condition `d`, or "" when no keyword occurs. */
  function ImageFor(d: string): (url: string)
    ensures url == "" <==> forall m :: 0 <= m < |Keywords| ==> !Contains(d, Keywords[m])
    ensures url != "" ==> exists n :: IsFirstMatch(d, n) && url == ImageUrl(n)
  {
    match FirstMatchFrom(d, 0)
    case Some(n) =>
      assert IsFirstMatch(d, n);
      ImageUrl(n)
    case None => ""
  }

  /** `ImageBackground(weatherDescription)`: trim, then pick by keyword. */
  function BackgroundImage(description: string): (url: string)
    ensures url == "" <==> forall m :: 0 <= m < |Keywords| ==> !Contains(Trim(description), Keywords[m])
    ensures url != "" ==> exists n :: IsFirstMatch(Trim(description), n) && url == ImageUrl(n)
  {
    ImageFor(Trim(description))
  }

  /** No two keywords share a picture (their addresses even differ in length). */
  lemma ImagesDistinct(a: int, b: int)
    requires 0 <= a < |Keywords| && 0 <= b < |Keywords| && ImageUrl(a) == ImageUrl(b)
    ensures a == b
  {
  }

  /** At most one keyword is the first match. */
  lemma FirstMatchUnique(d: string, a: int, b: int)
    requires IsFirstMatch(d, a) && IsFirstMatch(d, b)
    ensures a == b
  {
  }

  /** Every picture address is non-empty. */
  lemma ImagesNonEmpty(n: int)
    requires 0 <= n < |Keywords|
    ensures ImageUrl(n) != ""
  {
    ImagesDistinct(n, n);
  }

  /** The first keyword found in `d` gives its picture. */
  lemma ImageOfFirstMatch(d: string, n: int)
    requires IsFirstMatch(d, n)
    ensures ImageFor(d) == ImageUrl(n)
  {
    var n' :| IsFirstMatch(d, n') && ImageFor(d) == ImageUrl(n');
    FirstMatchUnique(d, n, n');
  }

  /** A keyword's picture is only given when that keyword is the first found. */
  lemma FirstMatchOfImage(d: string, n: int)
    requires 0 <= n < |Keywords| && ImageFor(d) == ImageUrl(n)
    ensures IsFirstMatch(d, n)
  {
    ImagesNonEmpty(n);
    var n' :| IsFirstMatch(d, n') && ImageFor(d) == ImageUrl(n');
    ImagesDistinct(n, n');
  }

  /** The picture is keyword `n`'s exactly when `n` is the first keyword in the trimmed condition. */
  lemma BackgroundImageIsFirstMatch(description: string, n: int)
    requires 0 <= n < |Keywords|
    ensures BackgroundImage(description) == ImageUrl(n) <==> IsFirstMatch(Trim(description), n)
  {
    var d := Trim(description);
    if IsFirstMatch(d, n) {
      ImageOfFirstMatch(d, n);
    }
    if ImageFor(d) == ImageUrl(n) {
      FirstMatchOfImage(d, n);
    }
  }

  /** Every keyword is non-empty and free of whitespace. */
  lemma KeywordsAreWords(n: int)
    requires 0 <= n < |Keywords|
    ensures Keywords[n] != [] && NoWhitespace(Keywords[n])
  {
  }

  /**
   * The trim in `ImageBackground` never changes the picture: since no
   * keyword holds whitespace, matching the untrimmed condition picks the same.
   */
  lemma BackgroundIgnoresTrim(description: string)
    ensures BackgroundImage(description) == ImageFor(description)
  {
    forall n | 0 <= n < |Keywords|
      ensures Contains(Trim(description), Keywords[n]) <==> Contains(description, Keywords[n])
    {
      KeywordsAreWords(n);
      ContainsTrimmed(description, Keywords[n]);
    }
    SameMatchesSameImage(Trim(description), description);
  }

  /** Two conditions containing the same keywords get the same picture. */
  lemma SameMatchesSameImage(d1: string, d2: string)
    requires forall n :: 0 <= n < |Keywords| ==> (Contains(d1, Keywords[n]) <==> Contains(d2, Keywords[n]))
    ensures ImageFor(d1) == ImageFor(d2)
  {
    SameMatchesFrom(d1, d2, 0);
  }

  lemma {:induction false} SameMatchesFrom(d1: string, d2: string, from: nat)
    requires from <= |Keywords|
    requires forall n :: 0 <= n < |Keywords| ==> (Contains(d1, Keywords[n]) <==> Contains(d2, Keywords[n]))
    ensures FirstMatchFrom(d1, from) == FirstMatchFrom(d2, from)
    decreases |Keywords| - from
  {
    if from < |Keywords| && !Contains(d1, Keywords[from]) {
      SameMatchesFrom(d1, d2, from + 1);
    }
  }

  /**
   * Order, not specificity, decides: a condition mentioning both "Rain" and
   * "Thunderstorm" never gets the thunderstorm picture.
   */
  lemma RainBeatsThunderstorm(description: string)
    requires Contains(Trim(description), "Rain") && Contains(Trim(description), "Thunderstorm")
    ensures BackgroundImage(description) != ImageUrl(4)
  {
    assert Keywords[3] == "Rain" && Keywords[4] == "Thunderstorm";
    BackgroundImageIsFirstMatch(description, 4);
  }
}

=== FILE: clock.dfy ===
/**
 * `convertUnixTimestampToTime(timestamp, timezoneOffset)` from WeatherPage.kt:
 * the sunrise or sunset instant (`Date(timestamp * 1000)`) is moved on by the
 * city's offset (`Calendar.add(SECOND, offset)`, a plain millisecond
 * addition) and the result is printed as `HH:mm:ss` in GMT, so the text is
 * the city's local wall-clock time. `timestamp * 1000` and the addition are
 * JVM `Long` arithmetic and are modelled with their wrap-around; the offset
 * is an `Int`, so `offset * 1000` stays below 2^42 in magnitude and cannot
 * overflow a `Long`.
 */
module Clock {
  import opened Jvm

  /** The instant, in milliseconds since the epoch, that gets formatted. */
  function ShiftedMillis(timestamp: Long, offset: Int32): (r: Long)
    ensures (r - (timestamp + offset) * 1000) % 0x1_0000_0000_0000_0000 == 0
    ensures NoOverflow(timestamp, offset) ==> r == (timestamp + offset) * 1000
  {
    WrapLong(WrapLong(timestamp * 1000) + offset * 1000)
  }

  /** Neither `timestamp * 1000` nor the shifted instant leaves the `Long` range. */
  predicate NoOverflow(timestamp: Long, offset: Int32) {
    && LongMin <= timestamp * 1000 <= LongMax
    && LongMin <= (timestamp + offset) * 1000 <= LongMax
  }

  /**
   * The second of the GMT day the instant `millis` falls in. The calendar
   * rounds towards the past, so an instant before 1970 counts back from
   * the following midnight (Dafny's `%` with a positive divisor agrees).
   */
  function SecondOfDay(millis: int): (s: int)
    ensures 0 <= s < 86400
    ensures s * 1000 <= millis % 86_400_000 < s * 1000 + 1000
  {
    (millis % 86_400_000) / 1000
  }

  predicate IsDigit(c: char) {
    '0' <= c <= '9'
  }

  function DigitChar(d: int): (c: char)
    requires 0 <= d < 10
    ensures IsDigit(c) && c as int == '0' as int + d
  {
    ('0' as int + d) as char
  }

  function DigitValue(c: char): (d: int)
    requires IsDigit(c)
    ensures 0 <= d < 10 && DigitChar(d) == c
  {
    c as int - '0' as int
  }

  /** The value of the two digits `r[i]`, `r[i + 1]`. */
  function FieldValue(r: string, i: int): int
    requires 0 <= i && i + 1 < |r| && IsDigit(r[i]) && IsDigit(r[i + 1])
  {
    DigitValue(r[i]) * 10 + DigitValue(r[i + 1])
  }

  /** `r` reads as a valid `HH:mm:ss` time of day. */
  predicate IsClockText(r: string) {
    && |r| == 8
    && r[2] == ':' && r[5] == ':'
    && IsDigit(r[0]) && IsDigit(r[1])
    && IsDigit(r[3]) && IsDigit(r[4])
    && IsDigit(r[6]) && IsDigit(r[7])
    && FieldValue(r, 0) < 24
    && FieldValue(r, 3) < 60
    && FieldValue(r, 6) < 60
  }

  /** The second of the day an `HH:mm:ss` text names. */
  function ClockValue(r: string): (s: int)
    requires IsClockText(r)
    ensures 0 <= s < 86400
  {
    FieldValue(r, 0) * 3600 + FieldValue(r, 3) * 60 + FieldValue(r, 6)
  }

  /** Two digits `a`, `b` read as `a * 10 + b` give back `a` and `b`. */
  lemma DigitPair(a: int, b: int)
    requires 0 <= a < 10 && 0 <= b < 10
    ensures (a * 10 + b) / 10 == a && (a * 10 + b) % 10 == b
  {
  }

  /** Hours, minutes and seconds read as a second of the day give back each field. */
  lemma ClockFields(h: int, m: int, sec: int)
    requires 0 <= h < 24 && 0 <= m < 60 && 0 <= sec < 60
    ensures var v := h * 3600 + m * 60 + sec;
      v / 3600 == h && v % 3600 / 60 == m && v % 60 == sec
  {
  }

  /** A second of the day splits into hours, minutes and seconds. */
  lemma SplitSecond(s: int)
    requires 0 <= s < 86400
    ensures s / 3600 < 24 && s % 3600 / 60 < 60
    ensures s == s / 3600 * 3600 + s % 3600 / 60 * 60 + s % 60
  {
  }

  /** Whole days do not change the second of the day. */
  lemma ModDays(x: int, days: int)
    ensures (x + days * 86400) % 86400 == x % 86400
  {
  }

  /** `SimpleDateFormat("HH:mm:ss")` applied to the second of the day `s`. */
  function ClockText(s: int): (r: string)
    requires 0 <= s < 86400
    ensures IsClockText(r) && ClockValue(r) == s
  {
    var h, m, sec := s / 3600, s % 3600 / 60, s % 60;
    SplitSecond(s);
    DigitPair(h / 10, h % 10);
    DigitPair(m / 10, m % 10);
    DigitPair(sec / 10, sec % 10);
    var r := [DigitChar(h / 10), DigitChar(h % 10), ':',
              DigitChar(m / 10), DigitChar(m % 10), ':',
              DigitChar(sec / 10), DigitChar(sec % 10)];
    assert FieldValue(r, 0) == h && FieldValue(r, 3) == m && FieldValue(r, 6) == sec;
    r
  }

  /** Every valid `HH:mm:ss` text is the printing of the second it names. */
  lemma ClockTextOfValue(r: string)
    requires IsClockText(r)
    ensures ClockText(ClockValue(r)) == r
  {
    var h, m, sec := FieldValue(r, 0), FieldValue(r, 3), FieldValue(r, 6);
    ClockFields(h, m, sec);
    DigitPair(DigitValue(r[0]), DigitValue(r[1]));
    DigitPair(DigitValue(r[3]), DigitValue(r[4]));
    DigitPair(DigitValue(r[6]), DigitValue(r[7]));
    var t := ClockText(ClockValue(r));
    assert t[0] == r[0] && t[1] == r[1] && t[3] == r[3] && t[4] == r[4] && t[6] == r[6] && t[7] == r[7];
  }

  /** Scaling to milliseconds and back does not change the second of the day. */
  lemma SecondOfDayOfSeconds(x: int)
    ensures SecondOfDay(x * 1000) == x % 86400
  {
  }

  /** Without overflow the formatted second is the local second of the day. */
  lemma ShiftedSecondOfDay(timestamp: Long, offset: Int32)
    ensures NoOverflow(timestamp, offset)
        ==> SecondOfDay(ShiftedMillis(timestamp, offset)) == (timestamp + offset) % 86400
  {
    if NoOverflow(timestamp, offset) {
      assert ShiftedMillis(timestamp, offset) == (timestamp + offset) * 1000;
      SecondOfDayOfSeconds(timestamp + offset);
    }
  }

  /**
   * `convertUnixTimestampToTime`: always a valid `HH:mm:ss` text naming the
   * GMT second of the day of the (possibly wrapped) shifted instant, and, as
   * long as no `Long` overflows, the local time of day
   * `(timestamp + offset) mod 86400`.
   */
  function ConvertUnixTimestampToTime(timestamp: Long, offset: Int32): (r: string)
    ensures IsClockText(r)
    ensures ClockValue(r) == SecondOfDay(ShiftedMillis(timestamp, offset))
    ensures NoOverflow(timestamp, offset) ==> ClockValue(r) == (timestamp + offset) % 86400
  {
    ShiftedSecondOfDay(timestamp, offset);
    ClockText(SecondOfDay(ShiftedMillis(timestamp, offset)))
  }

  /** A clock text is determined by the second it names. */
  lemma SameValueSameText(r1: string, r2: string)
    requires IsClockText(r1) && IsClockText(r2) && ClockValue(r1) == ClockValue(r2)
    ensures r1 == r2
  {
    ClockTextOfValue(r1);
    ClockTextOfValue(r2);
  }

  /** Two instants print the same exactly when they fall at the same local second of the day. */
  lemma SameTextSameSecond(t1: Long, o1: Int32, t2: Long, o2: Int32)
    requires NoOverflow(t1, o1) && NoOverflow(t2, o2)
    ensures ConvertUnixTimestampToTime(t1, o1) == ConvertUnixTimestampToTime(t2, o2)
        <==> (t1 + o1) % 86400 == (t2 + o2) % 86400
  {
    var r1, r2 := ConvertUnixTimestampToTime(t1, o1), ConvertUnixTimestampToTime(t2, o2);
    if ClockValue(r1) == ClockValue(r2) {
      ClockTextOfValue(r1);
      ClockTextOfValue(r2);
    }
  }

  /** Moving the instant by whole days does not change the printed time. */
  lemma ShiftByDays(timestamp: Long, offset: Int32, days: int)
    requires LongMin <= timestamp + days * 86400 <= LongMax
    requires NoOverflow(timestamp, offset) && NoOverflow(timestamp + days * 86400, offset)
    ensures ConvertUnixTimestampToTime(timestamp + days * 86400, offset)
         == ConvertUnixTimestampToTime(timestamp, offset)
  {
    var t2: Long := timestamp + days * 86400;
    ModDays(timestamp + offset, days);
    SameValueSameText(ConvertUnixTimestampToTime(t2, offset), ConvertUnixTimestampToTime(timestamp, offset));
  }

  /**
   * Past the overflow bound the wrap-around shows: the largest `Long`
   * timestamp times 1000 wraps to -1000, which prints as 23:59:59 rather
   * than the time of day of the timestamp itself.
   */
  lemma LargestTimestampWraps()
    ensures !NoOverflow(LongMax, 0)
    ensures ClockValue(ConvertUnixTimestampToTime(LongMax, 0)) == 86399
    ensures LongMax % 86400 != 86399
  {
    assert ShiftedMillis(LongMax, 0) == -1000;
  }
}

=== FILE: favorites.dfy ===
/**
 * The favourite cities of `WeatherPage`: a list of city names kept in
 * insertion order. `toggleFavorite` only ever adds (a city already present
 * is left alone) and `removeFavorite` filters out every copy of a name.
 * The list lives for the session only and starts empty.
 */
module Favorites {

  /** No city appears twice. */
  predicate NoDuplicates(favs: seq<string>) {
    forall i, j :: 0 <= i < j < |favs| ==> favs[i] != favs[j]
  }

  /** `sub` keeps some of the elements of `s`, in their original order. */
  predicate IsSubsequence(sub: seq<string>, s: seq<string>)
    decreases |s|
  {
    if sub == [] then true
    else if s == [] then false
    else if sub[0] == s[0] then IsSubsequence(sub[1..], s[1..])
    else IsSubsequence(sub, s[1..])
  }

  /** `toggleFavorite(cityName)`: append the city unless it is already a favourite. */
  function ToggleFavorite(favs: seq<string>, city: string): (r: seq<string>)
    ensures city in r
    ensures forall x :: x in r <==> x in favs || x == city
    ensures |r| == if city in favs then |favs| else |favs| + 1
    ensures r[..|favs|] == favs
  {
    if city in favs then favs else favs + [city]
  }

  /** `removeFavorite(cityName)`: `favorites.filterNot { it == cityName }`. */
  function RemoveFavorite(favs: seq<string>, city: string): (r: seq<string>)
    ensures city !in r
    ensures forall x :: x != city ==> multiset(r)[x] == multiset(favs)[x]
    ensures IsSubsequence(r, favs)
    ensures city !in favs ==> r == favs
  {
    if favs == [] then []
    else if favs[0] == city then
      assert favs == [favs[0]] + favs[1..];
      RemoveFavorite(favs[1..], city)
    else
      var rest := RemoveFavorite(favs[1..], city);
      assert favs == [favs[0]] + favs[1..];
      assert ([favs[0]] + rest)[1..] == rest;
      [favs[0]] + rest
  }

  /** Toggling never introduces a duplicate. */
  lemma ToggleKeepsNoDuplicates(favs: seq<string>, city: string)
    requires NoDuplicates(favs)
    ensures NoDuplicates(ToggleFavorite(favs, city))
  {
  }

  /** Toggling the same city twice is the same as toggling it once. */
  lemma ToggleIdempotent(favs: seq<string>, city: string)
    ensures ToggleFavorite(ToggleFavorite(favs, city), city) == ToggleFavorite(favs, city)
  {
  }

  /** Removing never introduces a duplicate. */
  lemma {:induction false} RemoveKeepsNoDuplicates(favs: seq<string>, city: string)
    requires NoDuplicates(favs)
    ensures NoDuplicates(RemoveFavorite(favs, city))
    decreases |favs|
  {
    if favs != [] {
      RemoveKeepsNoDuplicates(favs[1..], city);
      var rest := RemoveFavorite(favs[1..], city);
      if favs[0] != city {
        assert favs[0] !in favs[1..];
        assert multiset(rest)[favs[0]] == 0;
      }
    }
  }

  /** Filtering a concatenation filters each part. */
  lemma {:induction false} RemoveDistributes(a: seq<string>, b: seq<string>, city: string)
    ensures RemoveFavorite(a + b, city) == RemoveFavorite(a, city) + RemoveFavorite(b, city)
    decreases |a|
  {
    if a != [] {
      assert (a + b)[0] == a[0];
      assert (a + b)[1..] == a[1..] + b;
      RemoveDistributes(a[1..], b, city);
      var left := RemoveFavorite(a[1..], city);
      var right := RemoveFavorite(b, city);
      if a[0] == city {
        calc {
          RemoveFavorite(a + b, city);
          RemoveFavorite(a[1..] + b, city);
          left + right;
        }
        assert RemoveFavorite(a, city) == left;
      } else {
        calc {
          RemoveFavorite(a + b, city);
          [a[0]] + RemoveFavorite(a[1..] + b, city);
          [a[0]] + (left + right);
          ([a[0]] + left) + right;
        }
        assert RemoveFavorite(a, city) == [a[0]] + left;
      }
    } else {
      assert a + b == b;
    }
  }

  /** Removing a city just added by a toggle gives back the list before the toggle. */
  lemma RemoveUndoesToggle(favs: seq<string>, city: string)
    requires city !in favs
    ensures RemoveFavorite(ToggleFavorite(favs, city), city) == favs
  {
    RemoveDistributes(favs, [city], city);
  }

  /** A subsequence holds no more copies of anything than the sequence it came from. */
  lemma {:induction false} SubsequenceMultiset(sub: seq<string>, s: seq<string>)
    requires IsSubsequence(sub, s)
    ensures multiset(sub) <= multiset(s)
    decreases |s|
  {
    if sub != [] {
      assert s == [s[0]] + s[1..];
      if sub[0] == s[0] {
        SubsequenceMultiset(sub[1..], s[1..]);
        assert sub == [sub[0]] + sub[1..];
      } else {
        SubsequenceMultiset(sub, s[1..]);
      }
    }
  }

  /**
   * The contract of `RemoveFavorite` pins its result down: the only
   * order-preserving selection of `favs` without `city` that keeps every
   * other name as often as before is `RemoveFavorite(favs, city)`.
   */
  lemma {:induction false} RemoveCharacterised(favs: seq<string>, city: string, r: seq<string>)
    requires city !in r
    requires IsSubsequence(r, favs)
    requires forall x :: x != city ==> multiset(r)[x] == multiset(favs)[x]
    ensures r == RemoveFavorite(favs, city)
    decreases |favs|
  {
    if favs == [] {
    } else {
      var tail := favs[1..];
      assert favs == [favs[0]] + tail;
      if favs[0] == city {
        if r != [] { assert r[0] != favs[0]; }
        RemoveCharacterised(tail, city, r);
      } else if r != [] && r[0] == favs[0] {
        assert r == [r[0]] + r[1..];
        assert multiset(r) == multiset{r[0]} + multiset(r[1..]);
        assert multiset(favs) == multiset{favs[0]} + multiset(tail);
        forall x | x != city
          ensures multiset(r[1..])[x] == multiset(tail)[x]
        {
          assert multiset(r)[x] == multiset{r[0]}[x] + multiset(r[1..])[x];
          assert multiset(favs)[x] == multiset{favs[0]}[x] + multiset(tail)[x];
        }
        RemoveCharacterised(tail, city, r[1..]);
      } else {
        assert IsSubsequence(r, tail);
        assert multiset(favs)[favs[0]] == multiset(tail)[favs[0]] + 1;
        SubsequenceMultiset(r, tail);
        assert false;
      }
    }
  }

  /** What the user can do to the list: the heart icon and the delete icon. */
  datatype FavoriteAction = Toggle(city: string) | Remove(city: string)

  /** The list after applying `actions` in order to `favs`. */
  function ApplyActions(favs: seq<string>, actions: seq<FavoriteAction>): seq<string>
    decreases |actions|
  {
    if actions == [] then favs
    else
      var next := match actions[0]
        case Toggle(c) => ToggleFavorite(favs, c)
        case Remove(c) => RemoveFavorite(favs, c);
      ApplyActions(next, actions[1..])
  }

  /** The list starts empty, so whatever the user does it never holds a city twice. */
  lemma SessionHasNoDuplicates(actions: seq<FavoriteAction>)
    ensures NoDuplicates(ApplyActions([], actions))
  {
    ActionsKeepNoDuplicates([], actions);
  }

  lemma {:induction false} ActionsKeepNoDuplicates(favs: seq<string>, actions: seq<FavoriteAction>)
    requires NoDuplicates(favs)
    ensures NoDuplicates(ApplyActions(favs, actions))
    decreases |actions|
  {
    if actions != [] {
      match actions[0]
      case Toggle(c) =>
        ToggleKeepsNoDuplicates(favs, c);
        ActionsKeepNoDuplicates(ToggleFavorite(favs, c), actions[1..]);
      case Remove(c) =>
        RemoveKeepsNoDuplicates(favs, c);
        ActionsKeepNoDuplicates(RemoveFavorite(favs, c), actions[1..]);
    }
  }
}

=== FILE: jvm.dfy ===
/**
 * The fixed-width JVM integers the application's arithmetic runs on.
 * Dafny integers are unbounded, so the two's-complement wrap-around of a
 * `Long` multiplication or addition is written out here.
 */
module Jvm {

  const LongMin: int := -0x8000_0000_0000_0000
  const LongMax: int := 0x7fff_ffff_ffff_ffff

  /** A Kotlin `Long` (64-bit signed). */
  type Long = x: int | LongMin <= x <= LongMax

  /** A Kotlin `Int` (32-bit signed). */
  type Int32 = x: int | -0x8000_0000 <= x <= 0x7fff_ffff

  /** The `Long` a JVM multiplication or addition yields for the exact result `x`. */
  function WrapLong(x: int): (r: Long)
    ensures (r - x) % 0x1_0000_0000_0000_0000 == 0
    ensures LongMin <= x <= LongMax ==> r == x
  {
    (x + 0x8000_0000_0000_0000) % 0x1_0000_0000_0000_0000 - 0x8000_0000_0000_0000
  }
}

=== FILE: optional.dfy ===
/** A Kotlin nullable (`T?`): `None` stands for `null`. */
module Optional {

  datatype Option<+T> = None | Some(value: T) {

    /** Kotlin's elvis operator `this ?: default`. */
    function GetOr(default: T): T {
      match this
      case Some(v) => v
      case None => default
    }
  }
}

=== FILE: page.dfy ===
/**
 * The state `WeatherPage` derives from the two result cells: the weather
 * condition that drives the background, whether weather is loaded, the
 * backdrop actually painted, the sunrise and sunset texts, the five
 * forecast slots shown, and the fetches the search box, the location
 * button and a tap on a favourite issue.
 */
module Page {
  import opened Optional
  import opened Favorites
  import opened Text
  import opened WeatherData
  import opened ViewModel
  import opened Background
  import opened Clock

  /** `isWeatherLoaded`: the weather cell holds a success. */
  predicate IsWeatherLoaded(cell: Cell<WeatherModel>) {
    cell.Some? && cell.value.Success?
  }

  /**
   * The screen counts as loaded exactly when the last weather write was a
   * success: a start unloads it, a completion with data loads it, an error
   * unloads it, and a body-less success or any forecast event leaves it as
   * it was.
   */
  lemma LoadedAfterStep(st: State, e: Event)
    ensures e.StartWeather? ==> !IsWeatherLoaded(Step(st, e).weather)
    ensures e.WeatherDone? ==>
      (IsWeatherLoaded(Step(st, e).weather) <==> e.wo.Ok? && (e.wo.body.Some? || IsWeatherLoaded(st.weather)))
    ensures !IsWeatherEvent(e) ==> (IsWeatherLoaded(Step(st, e).weather) <==> IsWeatherLoaded(st.weather))
  {
  }

  /**
   * `weatherDescription`: the group name (`main`) of the first condition of
   * a successful weather result, and "" in every other case.
   */
  function WeatherDescription(cell: Cell<WeatherModel>): (d: string)
    ensures !IsWeatherLoaded(cell) ==> d == ""
    ensures IsWeatherLoaded(cell) && cell.value.data.weather != [] ==> d == cell.value.data.weather[0].main
    ensures IsWeatherLoaded(cell) && cell.value.data.weather == [] ==> d == ""
  {
    match cell
    case Some(Success(data)) => if data.weather == [] then "" else data.weather[0].main
    case _ => ""
  }

  /** What fills the screen behind the content. */
  datatype Backdrop = Gradient | Photo(url: string) | PlainWhite

  /**
   * The gradient until weather is loaded; then `ImageBackground`, which
   * shows the keyword's picture or, when no keyword matched, a white box.
   */
  function ScreenBackdrop(cell: Cell<WeatherModel>): (b: Backdrop)
    ensures b.Gradient? <==> !IsWeatherLoaded(cell)
    ensures b.Photo? ==> exists n :: IsFirstMatch(Trim(WeatherDescription(cell)), n) && b.url == ImageUrl(n)
    ensures b.PlainWhite? ==> forall n :: 0 <= n < |Keywords| ==> !Contains(Trim(WeatherDescription(cell)), Keywords[n])
  {
    if !IsWeatherLoaded(cell) then Gradient
    else
      var url := BackgroundImage(WeatherDescription(cell));
      if url != "" then Photo(url) else PlainWhite
  }

  /**
   * Whatever happened before, once a weather call completes successfully
   * the backdrop is the picture chosen from that result's first condition
   * (or white), and while any weather fetch is running it is the gradient.
   */
  lemma BackdropAfterWeather(st: State, q: Query, w: WeatherModel)
    ensures ScreenBackdrop(Step(st, StartWeather(q)).weather) == Gradient
    ensures var b := ScreenBackdrop(Step(st, WeatherDone(q, Ok(Some(w)))).weather);
      var url := BackgroundImage(if w.weather == [] then "" else w.weather[0].main);
      b == if url == "" then PlainWhite else Photo(url)
  {
  }

  /** `data.list.take(5)`: the forecast slots on screen. */
  function ShownForecast(f: ForecastModel): (shown: seq<ForecastItem>)
    ensures |shown| == if |f.list| < 5 then |f.list| else 5
    ensures shown == f.list[..|shown|]
  {
    if |f.list| <= 5 then f.list else f.list[..5]
  }

  /**
   * The sunrise and sunset texts `WeatherDetails` computes, in the city's
   * local time. The screen reaches them only when the condition list is
   * non-empty; otherwise it fails earlier, on `weather[0]`.
   */
  function SunTimes(w: WeatherModel): (texts: (string, string))
    ensures IsClockText(texts.0) && IsClockText(texts.1)
    ensures NoOverflow(w.sunrise, w.timezone) ==> ClockValue(texts.0) == (w.sunrise + w.timezone) % 86400
    ensures NoOverflow(w.sunset, w.timezone) ==> ClockValue(texts.1) == (w.sunset + w.timezone) % 86400
  {
    (ConvertUnixTimestampToTime(w.sunrise, w.timezone), ConvertUnixTimestampToTime(w.sunset, w.timezone))
  }

  /** `FavoriteIcon`'s `isFavorite`: the heart is drawn filled and red. */
  predicate HeartFilled(favs: seq<string>, city: string) {
    city in favs
  }

  /**
   * The heart's only handler is `toggleFavorite`: tapping an empty heart
   * fills it and appends the city, and tapping a filled heart (labelled
   * "Remove from favorites") leaves both the heart and the list unchanged.
   */
  lemma HeartTap(favs: seq<string>, city: string)
    ensures HeartFilled(ToggleFavorite(favs, city), city)
    ensures HeartFilled(favs, city) ==> ToggleFavorite(favs, city) == favs
    ensures !HeartFilled(favs, city) ==> ToggleFavorite(favs, city) == favs + [city]
  {
  }

  /** The search button, and a tap on a favourite city: fetch both kinds of data for the city. */
  function SearchCity(city: string): (events: seq<Event>)
    ensures |events| == 2 && events[0].StartWeather? && events[1].StartForecast?
    ensures forall e | e in events :: e.q == ByCity(city)
  {
    [StartWeather(ByCity(city)), StartForecast(ByCity(city))]
  }

  /** The location button: fetch both by coordinates, or nothing when no last location is known. */
  function UseCurrentLocation(location: Option<(real, real)>): (events: seq<Event>)
    ensures location.None? <==> events == []
    ensures location.Some? ==> |events| == 2 && events[0].StartWeather? && events[1].StartForecast?
    ensures location.Some? ==> forall e | e in events :: e.q == ByCoordinates(location.value.0, location.value.1)
  {
    match location
    case Some((lat, lon)) => [StartWeather(ByCoordinates(lat, lon)), StartForecast(ByCoordinates(lat, lon))]
    case None => []
  }

  /** Right after a search, both cells show `Loading`, whatever they held. */
  lemma SearchShowsLoading(st: State, city: string)
    ensures Run(st, SearchCity(city)) == State(Some(Loading), Some(Loading))
  {
    var events := SearchCity(city);
    WeatherLastWriteWins(st, events, 0);
    ForecastLastWriteWins(st, events, 1);
  }

  /** With a known location both cells show `Loading`; without one nothing changes. */
  lemma LocationShowsLoading(st: State, location: Option<(real, real)>)
    ensures location.Some? ==> Run(st, UseCurrentLocation(location)) == State(Some(Loading), Some(Loading))
    ensures location.None? ==> Run(st, UseCurrentLocation(location)) == st
  {
    var events := UseCurrentLocation(location);
    if location.Some? {
      WeatherLastWriteWins(st, events, 0);
      ForecastLastWriteWins(st, events, 1);
    }
  }
}

=== FILE: text.dfy ===
/**
 * The two Kotlin string operations the background selection relies on:
 * `String.trim()` and `String.contains(String)`. Strings are sequences of
 * characters; matching is exact (case-sensitive, no normalisation).
 */
module Text {

  /**
   * Kotlin's `Char.isWhitespace()` on the JVM: `Character.isWhitespace(c)`
   * or `Character.isSpaceChar(c)`. That is the ASCII controls TAB..CR and
   * FS..US, and every Unicode space, line or paragraph separator (no-break
   * spaces included).
   */
  predicate IsWhitespace(c: char)
    ensures IsWhitespace(c) && c as int < 0x7F ==> c as int <= 0x20
    ensures c == ' ' || c == '\t' || c == '\n' || c == '\r' ==> IsWhitespace(c)
    ensures c as int == 0xA0 || c as int == 0x2007 || c as int == 0x202F ==> IsWhitespace(c)
  {
    var n := c as int;
    || 0x09 <= n <= 0x0D
    || 0x1C <= n <= 0x20
    || n == 0xA0
    || n == 0x1680
    || 0x2000 <= n <= 0x200A
    || n == 0x2028
    || n == 0x2029
    || n == 0x202F
    || n == 0x205F
    || n == 0x3000
  }

  predicate AllWhitespace(s: string) {
    forall i :: 0 <= i < |s| ==> IsWhitespace(s[i])
  }

  predicate NoWhitespace(s: string) {
    forall i :: 0 <= i < |s| ==> !IsWhitespace(s[i])
  }

  /**
   * `r` is the slice `s[i..j]`, everything before `i` and from `j` on is
   * whitespace, and the slice neither starts nor ends with whitespace.
   */
  predicate TrimmedAt(s: string, r: string, i: int, j: int) {
    && 0 <= i <= j <= |s| && r == s[i..j]
    && AllWhitespace(s[..i]) && AllWhitespace(s[j..])
    && (r != [] ==> !IsWhitespace(r[0]) && !IsWhitespace(r[|r| - 1]))
  }

  /** `r` is what trimming `s` must give. */
  ghost predicate IsTrimOf(s: string, r: string) {
    exists i, j :: TrimmedAt(s, r, i, j)
  }

  /** Where `s` stops being whitespace, scanning forwards from `i`. */
  function TrimStartIndex(s: string, i: int): (k: int)
    requires 0 <= i <= |s|
    ensures i <= k <= |s|
    ensures forall p :: i <= p < k ==> IsWhitespace(s[p])
    ensures k < |s| ==> !IsWhitespace(s[k])
    decreases |s| - i
  {
    if i < |s| && IsWhitespace(s[i]) then TrimStartIndex(s, i + 1) else i
  }

  /** Where `s` stops being whitespace, scanning backwards from `j` down to `lo`. */
  function TrimEndIndex(s: string, lo: int, j: int): (k: int)
    requires 0 <= lo <= j <= |s|
    ensures lo <= k <= j
    ensures forall p :: k <= p < j ==> IsWhitespace(s[p])
    ensures lo < k ==> !IsWhitespace(s[k - 1])
    decreases j - lo
  {
    if lo < j && IsWhitespace(s[j - 1]) then TrimEndIndex(s, lo, j - 1) else j
  }

  /** Kotlin's `String.trim()`. */
  function Trim(s: string): (r: string)
    ensures IsTrimOf(s, r)
  {
    var i := TrimStartIndex(s, 0);
    var j := TrimEndIndex(s, i, |s|);
    assert TrimmedAt(s, s[i..j], i, j);
    s[i..j]
  }

  /** `k` occurs in `s` starting at index `i`. */
  predicate OccursAt(s: string, k: string, i: int) {
    0 <= i && i + |k| <= |s| && s[i..i + |k|] == k
  }

  /** Kotlin's `s.contains(k)`: case-sensitive substring search. */
  function Contains(s: string, k: string): (b: bool)
    ensures b <==> exists i :: OccursAt(s, k, i)
    decreases |s|
  {
    if |k| > |s| then
      false
    else if s[..|k|] == k then
      assert OccursAt(s, k, 0);
      true
    else
      var b := Contains(s[1..], k);
      if b then
        var i :| OccursAt(s[1..], k, i);
        assert OccursAt(s, k, i + 1);
        b
      else
        assert forall i :: OccursAt(s, k, i) ==> i > 0 && OccursAt(s[1..], k, i - 1);
        b
  }

  /** Every character of `s` outside `s[i..j]` is whitespace. */
  lemma OutsideIsWhitespace(s: string, r: string, i: int, j: int, p: int)
    requires TrimmedAt(s, r, i, j)
    requires 0 <= p < |s| && (p < i || p >= j)
    ensures IsWhitespace(s[p])
  {
    if p < i {
      assert s[..i][p] == s[p];
    } else {
      assert s[j..][p - j] == s[p];
    }
  }

  /** Two valid trims of the same string cut at the same places unless one is empty. */
  lemma TrimmedAtSame(s: string, r1: string, i1: int, j1: int, r2: string, i2: int, j2: int)
    requires TrimmedAt(s, r1, i1, j1) && TrimmedAt(s, r2, i2, j2)
    ensures r1 == r2
  {
    if r1 != [] {
      assert !IsWhitespace(s[i1]) && !IsWhitespace(s[j1 - 1]);
      if r2 == [] {
        OutsideIsWhitespace(s, r2, i2, j2, i1);
      } else {
        assert !IsWhitespace(s[i2]) && !IsWhitespace(s[j2 - 1]);
        if i1 < i2 { OutsideIsWhitespace(s, r2, i2, j2, i1); }
        if i2 < i1 { OutsideIsWhitespace(s, r1, i1, j1, i2); }
        if j1 < j2 { OutsideIsWhitespace(s, r1, i1, j1, j2 - 1); }
        if j2 < j1 { OutsideIsWhitespace(s, r2, i2, j2, j1 - 1); }
      }
    } else if r2 != [] {
      assert !IsWhitespace(s[i2]);
      OutsideIsWhitespace(s, r1, i1, j1, i2);
    }
  }

  /** Trimming has exactly one possible answer: `Trim` is determined by `IsTrimOf`. */
  lemma TrimUnique(s: string, r: string)
    requires IsTrimOf(s, r)
    ensures r == Trim(s)
  {
    var t := Trim(s);
    var i1, j1 :| TrimmedAt(s, r, i1, j1);
    var i2, j2 :| TrimmedAt(s, t, i2, j2);
    TrimmedAtSame(s, r, i1, j1, t, i2, j2);
  }

  lemma SliceOfSlice(s: string, i: int, j: int, a: int, b: int)
    requires 0 <= i <= j <= |s| && 0 <= a <= b <= j - i
    ensures s[i..j][a..b] == s[i + a..i + b]
  {
    assert forall n :: 0 <= n < b - a ==> s[i..j][a..b][n] == s[i + a + n];
  }

  /** An occurrence inside the kept slice is an occurrence in the whole string. */
  lemma OccursInSlice(s: string, r: string, i: int, j: int, k: string, p: int)
    requires TrimmedAt(s, r, i, j) && OccursAt(r, k, p)
    ensures OccursAt(s, k, i + p)
  {
    SliceOfSlice(s, i, j, p, p + |k|);
  }

  /** An occurrence of a whitespace-free word in the whole string lies inside the kept slice. */
  lemma OccursInTrimmed(s: string, r: string, i: int, j: int, k: string, p: int)
    requires TrimmedAt(s, r, i, j) && OccursAt(s, k, p)
    requires k != [] && NoWhitespace(k)
    ensures OccursAt(r, k, p - i)
  {
    var q := p + |k| - 1;
    assert s[p..p + |k|][0] == s[p] && s[p..p + |k|][|k| - 1] == s[q];
    assert !IsWhitespace(s[p]) && !IsWhitespace(s[q]);
    if p < i { OutsideIsWhitespace(s, r, i, j, p); }
    if q >= j { OutsideIsWhitespace(s, r, i, j, q); }
    SliceOfSlice(s, i, j, p - i, p - i + |k|);
  }

  /**
   * Trimming never changes whether a non-empty, whitespace-free word
   * occurs: only whitespace is cut away, and such a word cannot overlap it.
   */
  lemma ContainsTrimmed(s: string, k: string)
    requires k != [] && NoWhitespace(k)
    ensures Contains(Trim(s), k) <==> Contains(s, k)
  {
    var r := Trim(s);
    var i, j :| TrimmedAt(s, r, i, j);
    if Contains(r, k) {
      var p :| OccursAt(r, k, p);
      OccursInSlice(s, r, i, j, k, p);
    }
    if Contains(s, k) {
      var p :| OccursAt(s, k, p);
      OccursInTrimmed(s, r, i, j, k, p);
    }
  }
}

=== FILE: view_model.dfy ===
/**
 * `WeatherViewModel`: two independent result cells, one for the current
 * weather and one for the forecast, each holding the latest
 * `NetworkResponse` (or nothing before the first fetch). Every fetch first
 * sets its cell to `Loading`; when the service call finishes, its outcome
 * is written over whatever the cell holds by then. The asynchronous part is
 * modelled as an explicit sequence of start and completion events, so an
 * interleaving of overlapping fetches is just one such sequence.
 */
module ViewModel {
  import opened Optional
  import opened WeatherData

  /** What a fetch asks for: a city name (`getData`, `getForecastData`) or a position (the `...ByCoordinates` variants). */
  datatype Query = ByCity(city: string) | ByCoordinates(lat: real, lon: real)

  /**
   * How a call to the service ended, as the coroutine sees it: a successful
   * HTTP response with a body or with none (`response.body()` is null), an
   * unsuccessful HTTP response, or an exception with its (nullable) message.
   */
  datatype Outcome<+T> = Ok(body: Option<T>) | HttpFail | Exn(message: Option<string>)

  /** The value of one `MutableLiveData` cell; `None` until the first fetch. */
  type Cell<T> = Option<NetworkResponse<T>>

  datatype State = State(weather: Cell<WeatherModel>, forecast: Cell<ForecastModel>)

  const Initial: State := State(None, None)

  const LocationNotFound: string := "Location not found"
  const ErrorPrefix: string := "An error occurred: "
  const ForecastFailed: string := "Failed to load forecast data"

  /** Kotlin's string template applied to a `String?`: null is printed as "null". */
  function Template(m: Option<string>): (r: string)
    ensures m.Some? ==> r == m.value
    ensures r == "null" <==> m == None || m == Some("null")
  {
    m.GetOr("null")
  }

  /**
   * The message a weather fetch shows when its call throws. `getData`
   * appends a literal "a" after the exception message;
   * `getWeatherDataByCoordinates` does not.
   */
  function WeatherExceptionMessage(q: Query, m: Option<string>): (msg: string)
    ensures ErrorPrefix <= msg
    ensures q.ByCity? ==> |msg| == |ErrorPrefix| + |Template(m)| + 1 && msg[|msg| - 1] == 'a'
    ensures q.ByCoordinates? ==> |msg| >= |ErrorPrefix| && msg[|ErrorPrefix|..] == Template(m)
  {
    match q
    case ByCity(_) => ErrorPrefix + Template(m) + "a"
    case ByCoordinates(_, _) => ErrorPrefix + Template(m)
  }

  /** The exception text a weather error message carries, read back out of the message. */
  function ExceptionTextOf(q: Query, msg: string): string
    requires |ErrorPrefix| + (if q.ByCity? then 1 else 0) <= |msg|
  {
    msg[|ErrorPrefix|..|msg| - (if q.ByCity? then 1 else 0)]
  }

  /** The exception message survives in the shown text: it can be read back. */
  lemma ExceptionTextRecoverable(q: Query, m: Option<string>)
    ensures ExceptionTextOf(q, WeatherExceptionMessage(q, m)) == Template(m)
  {
    var msg := WeatherExceptionMessage(q, m);
    if q.ByCity? {
      assert msg == (ErrorPrefix + Template(m)) + "a";
      assert msg[..|msg| - 1] == ErrorPrefix + Template(m);
      assert msg[|ErrorPrefix|..|msg| - 1] == msg[..|msg| - 1][|ErrorPrefix|..];
    }
  }

  /**
   * What a finished weather call writes into the weather cell (`None`:
   * nothing is written — a successful response without a body).
   */
  function WeatherWrite(q: Query, o: Outcome<WeatherModel>): (w: Option<NetworkResponse<WeatherModel>>)
    ensures w != Some(Loading)
    ensures w.None? <==> o == Ok(None)
    ensures forall b :: w == Some(Success(b)) <==> o == Ok(Some(b))
    ensures w == Some(Error(LocationNotFound)) <==> o == HttpFail
    ensures o.Exn? ==> w.Some? && w.value.Error? && ErrorPrefix <= w.value.message
    ensures o.Exn? ==> w == Some(Error(WeatherExceptionMessage(q, o.message)))
  {
    match o
    case Ok(Some(b)) => Some(Success(b))
    case Ok(None) => None
    case HttpFail => Some(Error(LocationNotFound))
    case Exn(m) =>
      var msg := WeatherExceptionMessage(q, m);
      assert msg[0] == 'A' && LocationNotFound[0] == 'L';
      Some(Error(msg))
  }

  /**
   * What a finished forecast call writes into the forecast cell. Both
   * forecast fetches collapse every failure into the same message.
   */
  function ForecastWrite(q: Query, o: Outcome<ForecastModel>): (w: Option<NetworkResponse<ForecastModel>>)
    ensures w != Some(Loading)
    ensures w.None? <==> o == Ok(None)
    ensures forall b :: w == Some(Success(b)) <==> o == Ok(Some(b))
    ensures w == Some(Error(ForecastFailed)) <==> o.HttpFail? || o.Exn?
    ensures forall msg :: w == Some(Error(msg)) ==> msg == ForecastFailed
  {
    match o
    case Ok(Some(b)) => Some(Success(b))
    case Ok(None) => None
    case _ => Some(Error(ForecastFailed))
  }

  /**
   * A weather cell's terminal value tells the outcome apart completely,
   * except that an exception with a null message and one whose message is
   * the text "null" look the same.
   */
  lemma WeatherWriteDistinguishes(q: Query, o1: Outcome<WeatherModel>, o2: Outcome<WeatherModel>)
    ensures WeatherWrite(q, o1) == WeatherWrite(q, o2)
        <==> o1 == o2 || (o1.Exn? && o2.Exn? && Template(o1.message) == Template(o2.message))
  {
    if o1.Exn? && o2.Exn? && WeatherWrite(q, o1) == WeatherWrite(q, o2) {
      ExceptionTextRecoverable(q, o1.message);
      ExceptionTextRecoverable(q, o2.message);
    }
  }

  /** Which query a forecast came from never shows in its cell. */
  lemma ForecastIgnoresQuery(q1: Query, q2: Query, o: Outcome<ForecastModel>)
    ensures ForecastWrite(q1, o) == ForecastWrite(q2, o)
  {
  }

  /** One step of the app: a fetch starts (first line of each fetch function) or its call completes. */
  datatype Event =
    | StartWeather(q: Query)
    | WeatherDone(q: Query, wo: Outcome<WeatherModel>)
    | StartForecast(q: Query)
    | ForecastDone(q: Query, fo: Outcome<ForecastModel>)

  predicate IsWeatherEvent(e: Event) {
    e.StartWeather? || e.WeatherDone?
  }

  /** What the event writes into the weather cell, if anything. */
  function WeatherWriteOf(e: Event): Option<NetworkResponse<WeatherModel>> {
    match e
    case StartWeather(_) => Some(Loading)
    case WeatherDone(q, o) => WeatherWrite(q, o)
    case _ => None
  }

  /** What the event writes into the forecast cell, if anything. */
  function ForecastWriteOf(e: Event): Option<NetworkResponse<ForecastModel>> {
    match e
    case StartForecast(_) => Some(Loading)
    case ForecastDone(q, o) => ForecastWrite(q, o)
    case _ => None
  }

  /** The cells after one event. */
  function Step(st: State, e: Event): (st': State)
    ensures IsWeatherEvent(e) ==> st'.forecast == st.forecast
    ensures !IsWeatherEvent(e) ==> st'.weather == st.weather
    ensures e.StartWeather? ==> st'.weather == Some(Loading)
    ensures e.StartForecast? ==> st'.forecast == Some(Loading)
    ensures e == WeatherDone(e.q, Ok(None)) ==> st' == st
    ensures e == ForecastDone(e.q, Ok(None)) ==> st' == st
  {
    match e
    case StartWeather(_) => st.(weather := Some(Loading))
    case WeatherDone(q, o) =>
      (match WeatherWrite(q, o)
       case Some(v) => st.(weather := Some(v))
       case None => st)
    case StartForecast(_) => st.(forecast := Some(Loading))
    case ForecastDone(q, o) =>
      (match ForecastWrite(q, o)
       case Some(v) => st.(forecast := Some(v))
       case None => st)
  }

  /** The cells after the events, in order. */
  function Run(st: State, events: seq<Event>): State
    decreases |events|
  {
    if events == [] then st
    else Step(Run(st, events[..|events| - 1]), events[|events| - 1])
  }

  /** Each cell holds exactly what the last event that wrote to it wrote. */
  lemma {:induction false} WeatherLastWriteWins(st: State, events: seq<Event>, i: int)
    requires 0 <= i < |events| && WeatherWriteOf(events[i]).Some?
    requires forall j :: i < j < |events| ==> WeatherWriteOf(events[j]).None?
    ensures Run(st, events).weather == WeatherWriteOf(events[i])
    decreases |events|
  {
    var init := events[..|events| - 1];
    if i < |events| - 1 {
      WeatherLastWriteWins(st, init, i);
    }
  }

  /** A cell no event writes keeps its value. */
  lemma {:induction false} WeatherUnwritten(st: State, events: seq<Event>)
    requires forall j :: 0 <= j < |events| ==> WeatherWriteOf(events[j]).None?
    ensures Run(st, events).weather == st.weather
    decreases |events|
  {
    if events != [] {
      WeatherUnwritten(st, events[..|events| - 1]);
    }
  }

  lemma {:induction false} ForecastLastWriteWins(st: State, events: seq<Event>, i: int)
    requires 0 <= i < |events| && ForecastWriteOf(events[i]).Some?
    requires forall j :: i < j < |events| ==> ForecastWriteOf(events[j]).None?
    ensures Run(st, events).forecast == ForecastWriteOf(events[i])
    decreases |events|
  {
    var init := events[..|events| - 1];
    if i < |events| - 1 {
      ForecastLastWriteWins(st, init, i);
    }
  }

  lemma {:induction false} ForecastUnwritten(st: State, events: seq<Event>)
    requires forall j :: 0 <= j < |events| ==> ForecastWriteOf(events[j]).None?
    ensures Run(st, events).forecast == st.forecast
    decreases |events|
  {
    if events != [] {
      ForecastUnwritten(st, events[..|events| - 1]);
    }
  }

  /** Weather fetches never touch the forecast cell, and forecast fetches never touch the weather cell. */
  lemma CellsIndependent(st: State, events: seq<Event>)
    ensures (forall j :: 0 <= j < |events| ==> IsWeatherEvent(events[j])) ==> Run(st, events).forecast == st.forecast
    ensures (forall j :: 0 <= j < |events| ==> !IsWeatherEvent(events[j])) ==> Run(st, events).weather == st.weather
  {
    if forall j :: 0 <= j < |events| ==> IsWeatherEvent(events[j]) {
      ForecastUnwritten(st, events);
    }
    if forall j :: 0 <= j < |events| ==> !IsWeatherEvent(events[j]) {
      WeatherUnwritten(st, events);
    }
  }

  /**
   * Completions are plain overwrites: two weather fetches are started, the
   * second finishes first, and the cell ends up showing the first one's
   * result — the last to resolve wins, not the last to be issued.
   */
  lemma LastResolvedWins(q1: Query, q2: Query, o1: Outcome<WeatherModel>, o2: Outcome<WeatherModel>)
    requires o1 != Ok(None)
    ensures Run(Initial, [StartWeather(q1), StartWeather(q2), WeatherDone(q2, o2), WeatherDone(q1, o1)]).weather
         == WeatherWrite(q1, o1)
  {
    var events := [StartWeather(q1), StartWeather(q2), WeatherDone(q2, o2), WeatherDone(q1, o1)];
    WeatherLastWriteWins(Initial, events, 3);
  }

  /**
   * A successful response without a body writes nothing: the cell a fetch
   * set to `Loading` stays `Loading`, whatever it held before.
   */
  lemma MissingBodyLeavesLoading(st: State, q: Query)
    ensures Run(st, [StartWeather(q), WeatherDone(q, Ok(None))]).weather == Some(Loading)
  {
    WeatherLastWriteWins(st, [StartWeather(q), WeatherDone(q, Ok(None))], 0);
  }
}

=== FILE: weather_data.dfy ===
/**
 * The records the weather service returns, reduced to the fields the
 * screen reads, and the three-state `NetworkResponse` that the view model
 * publishes for each kind of data.
 */
module WeatherData {
  import opened Jvm

  /** One weather condition entry (`weather[i]`): its group name, wording and icon code. */
  datatype Condition = Condition(main: string, description: string, icon: string)

  /** The current weather for one place. Temperatures arrive as text, in kelvin. */
  datatype WeatherModel = WeatherModel(
    name: string,
    temp: string,
    weather: seq<Condition>,
    sunrise: Long,
    sunset: Long,
    timezone: Int32)

  /** One three-hour forecast slot (`Item0`). */
  datatype ForecastItem = ForecastItem(dtTxt: string, temp: string, weather: seq<Condition>)

  /** The forecast, slots in the order the service sends them. */
  datatype ForecastModel = ForecastModel(list: seq<ForecastItem>)

  /** `NetworkResponse<T>`: a fetch is running, has produced data, or has failed with a message. */
  datatype NetworkResponse<+T> = Loading | Success(data: T) | Error(message: string)
}
